=== FILE: README.md ===
# strtime — the format-matching engine, in Dafny

`strtime` parses date/time strings whose format may be unknown. Its Go file
`time.go` wraps a C `strptime` (`bsd_strptime`) in a small engine:

- `StringByLength` orders layouts by length, longest first, and
  `sort.Sort` uses it to reorder the global catalog `defaultLayouts` before
  every fallback search.
- `Strptime(value, layout)` has two modes. An empty layout selects
  *fallback mode*: the sorted catalog is walked and the first attempt the
  extractor accepts (`r != 0 && err == nil`) wins; failed attempts are
  skipped silently; if none is accepted the error is "no suitable format
  found". A non-empty layout selects *strict mode*: one attempt, whose
  failure becomes "could not parse <value> as <layout>".
- On success both modes build a `time.Time` from the extracted
  `struct mytm`: year + 1900, month + 1, the other fields copied, and a fixed
  zone from the extracted zone name and offset.

The model keeps the extractor abstract: it is a parameter
`extract(value, layout, tmIn) -> Attempt(r, errno, tmOut)`. The single
`cTime` record that Go declares once per call is threaded through the
fallback attempts, so each attempt sees what the previous one left in it.

Files:

- `ctypes.dfy` — module `CTypes`: C `int` (`Int32`) and Go's 32-bit
  wrap-around (`Wrap32`), `struct mytm` (`Tm`), `char *` (`CharPtr`) and
  `C.GoString`, and the shape of one extractor call (`Attempt`, `Extractor`,
  `Succeeded`).
- `by_length.dfy` — module `ByLength`: Go's byte-counting `len` (`Utf8Len`), `Less`, `Swap`, the sortedness
  predicate, a sort that uses only `Less` and `Swap`, and the lemma that
  pins down what an unstable sort leaves open.
- `catalog.dfy` — module `Catalog`: the 102 default layouts as data.
- `strtime.dfy` — module `Strtime`: `time.Time`, the errors, field assembly,
  strict mode, the fallback search and the `Strptime` entry point.

Consequences of the code that the model keeps:

- `sort.Sort` is not stable, so the model claims only a sorted permutation,
  plus `ByLength.SortedLengthsUnique`.
- One `cTime` is declared per call and never reset between fallback
  attempts. The model threads it through the attempts (`Strtime.TmBefore`);
  `Strtime.SharedRecordLeaks` shows that this can matter.
- The fallback error is the constant "no suitable format found", so
  `NoSuitableFormat` has no fields.
- `Strptime` accepts any value, including "", so no operation requires a
  non-empty one.

## Model

| member | source | states |
|---|---|---|
| CTypes.Wrap32 | time.go:150 | `tm_mon + 1` is C `int` arithmetic: the result is the one 32-bit value congruent to the sum modulo 2^32, and the sum itself when it fits |
| CTypes.GoString | time.go:156 | `C.GoString` of the zone pointer: the pointed-to string, and "" for NULL |
| CTypes.Succeeded | time.go:147 | an attempt is accepted exactly when `r != 0` and cgo's `err` is nil (errno 0) |
| ByLength.Utf8Len | time.go:29 | Go's `len` of a string: the byte count of its UTF-8 encoding, between one and four bytes per character |
| ByLength.AsciiUtf8Len | time.go:29 | on a string of ASCII characters, `len` equals the number of characters |
| ByLength.NonAsciiUtf8Len | time.go:29 | a string with any non-ASCII character is longer in bytes than in characters |
| ByLength.Less | time.go:27-30 | `Less(i, j)` holds exactly when element `i` is strictly longer than element `j`, both measured in UTF-8 bytes as `len` measures them |
| ByLength.LessCountsBytes | time.go:27-30 | "é" and "ab" are both two bytes, so neither is `Less` than the other and both orders of the pair are sorted |
| ByLength.LongerIsStrictWeakOrder | time.go:27-30 | the byte-length order is irreflexive, asymmetric and transitive, and equal length is transitive: a valid `sort.Interface` order |
| ByLength.Swap | time.go:23-25 | `Swap(i, j)` exchanges the two elements, leaves every other one in place, and keeps the multiset of layouts |
| ByLength.SwapInvolution | time.go:23-25 | swapping the same two positions twice restores the slice |
| ByLength.Sort | time.go:144 | sorting through `Less`/`Swap` yields a permutation of the catalog, duplicates included, with byte lengths never increasing |
| ByLength.SortedLengthsUnique | time.go:144 | any two length-sorted permutations of the same layouts have equal byte lengths at every index: only equal-length ties are left open by the unstable sort |
| Catalog.DefaultLayouts | time.go:33-136 | the 102 layouts of `defaultLayouts` in declaration order, duplicates included |
| Catalog.DefaultLayoutsHaveDuplicates | time.go:33-136 | the catalog has 102 entries, with 8 layouts listed twice (lines 121-126 repeat 109-114; 130 repeats 129; 135 repeats 134), so sorting must keep multiplicities |
| Catalog.DefaultLayoutsSorted | time.go:33-136 | every sorted permutation of the catalog has 102 entries, the same length at every index as any other, and a first layout at least as long as line 104's 29 bytes |
| CTypes.ZeroTm | time.go:142 | the zero `struct mytm` that `var cTime C.struct_mytm` declares: every numeric field 0 and `tm_zone` NULL |
| Strtime.Assemble | time.go:148-157 | a successful parse gives a `time.Date`: its year less 1900 is `tm_year`, and its zone carries the extracted name (NULL read as "") and offset verbatim |
| Strtime.AssembleRoundTrip | time.go:148-157 | every field of the extracted record can be recovered from the assembled time; only NULL and "" zone names coincide |
| Strtime.TmOfRoundTrip | time.go:173-182 | every time whose fields fit the C record is the assembly of exactly the record read back from it |
| Strtime.AssembleInjective | time.go:156 | records with non-NULL zone names and different fields, offsets included, give different times: no zone-database normalisation |
| Strtime.AssembleMonth | time.go:150 | a 0-based month 0..11 becomes 1..12; below `INT32_MAX` the month is `tm_mon + 1`, and at `INT32_MAX` it wraps to `INT32_MIN` |
| Strtime.Strict | time.go:164-182 | strict mode fails exactly when its one attempt on a zero record gives `r == 0` or a non-zero errno; the error names the value and the layout, and its cause is empty exactly when `r == 0`; on success the time is that attempt's assembly |
| Strtime.Fallback | time.go:145-161 | the fallback search never surfaces an attempt's error: its error is nil or "no suitable format found", and it has a time exactly when the error is nil |
| Strtime.TmBefore | time.go:142-147 | the one `cTime` is never reset: attempt `k` is handed the record the attempt before it left; the first attempt gets the starting record, and an extractor that never writes the record leaves it unchanged throughout |
| Strtime.AttemptAt | time.go:145-147 | attempt `k` calls the extractor on `value`, the `k`-th layout and the threaded record: the first attempt sees the starting record, and with an extractor that never writes the record every attempt does |
| Strtime.TmBeforeShift | time.go:142-147 | after a failed first attempt, the later attempts see the records they would see in a search over the remaining layouts started from what that attempt left |
| Strtime.FallbackFirstMatch | time.go:145-158 | when attempt `k` is the first to succeed, the result is the assembly of the record that attempt produced, with a nil error |
| Strtime.FallbackExhausted | time.go:145-161 | when no attempt succeeds, including an empty catalog, the result is the zero time and "no suitable format found" |
| Strtime.FallbackSucceedsIff | time.go:145-161 | the search succeeds if and only if some attempt, on the record left by the attempts before it, succeeds |
| Strtime.LongerLayoutsTriedFirst | time.go:144-147 | in the sorted catalog, every layout strictly longer in bytes than the one that matched came earlier and failed |
| Strtime.StrictAgreesWithFallback | time.go:145-182 | strict mode with layout `l` succeeds exactly when fallback over `[l]` does, and then both assemble the same time |
| Strtime.FallbackIsFirstStrictMatch | time.go:142-147 | if the extractor's outcome never depends on the record it is handed, the fallback result is the strict-mode result of the first layout strict mode accepts |
| Strtime.SharedRecordLeaks | time.go:142-147 | there is an extractor that leaves an offset behind on a failed attempt and makes fallback report that offset where strict mode with the same layout reports 0 (an example; an extractor that overwrites the offset on success does not leak it) |
| Strtime.Strptime | time.go:138-183 | an empty layout sorts the catalog (a sorted permutation) and runs the fallback search, trying exactly the layouts up to the first success, or all of them; a non-empty layout leaves the catalog alone and makes exactly one attempt, with that layout |

## Left out

- `bsd_strptime` and `bsdshim.h` are not part of this model: the extractor is a parameter, and the `%`-directives of the layouts are opaque strings.
- The widths of `tm_nsec` and `tm_gmtoff` come from `bsdshim.h`, which is not part of this model; they are unbounded integers. `tm_year` … `tm_sec` of `struct mytm` are taken as C `int`, as in C's `struct tm`.
- cgo string marshalling: `C.CString` (including the truncation a C function sees at an embedded NUL byte), `C.free`, and the `cl` buffer that is not freed on the success path. The extractor receives the Go strings as they are.
- Strtime.Assemble: assumes Go's `int` is 64 bits wide, so `int(tm_year) + 1900`, `int(tm_nsec)` and `int(tm_gmtoff)` neither wrap nor truncate; on 32-bit targets (386, arm) the year sum wraps for `tm_year > INT32_MAX - 1900`, which the model does not show.
- `time.Date` normalisation of out-of-range fields and the internals of `time.FixedZone`: a `Time` is the argument list of the `time.Date` call.
- The text and cause chain of `errors.New` / `errors.Wrapf`: an error records only its kind, the value and layout it names, and its cause.
- Concurrency: the in-place sort of the global `defaultLayouts` races when `Strptime` runs in parallel. The model passes the catalog in and returns its sorted state.
- ByLength.Sort: Go's `sort.Sort` is a pattern-defeating quicksort. The model uses an insertion sort, and claims only what `sort.Sort` promises. The two sorts may order equal-length layouts differently; `SortedLengthsUnique` bounds that difference.
- `StringByLength.Len` is the slice length, `|a|`, and needs no member of its own.
- ByLength.Less: a Dafny string is a sequence of Unicode scalar values, so a Go string holding bytes that are not valid UTF-8 has no counterpart; `Utf8Len` measures the UTF-8 encoding of the characters.

=== FILE: by_length.dfy ===
/**
  `StringByLength`: the `sort.Interface` over a slice of layouts that orders
  them longest first, and the `sort.Sort` call that reorders the catalog with
  it. Go's `len` of a string counts the bytes of its UTF-8 encoding, which
  `Utf8Len` computes from the characters of a Dafny string.
 */
module ByLength {

  /** The number of bytes UTF-8 uses to encode `c`. */
  function RuneLen(c: char): (n: nat)
    ensures 1 <= n <= 4
    ensures n == 1 <==> c as int < 0x80
  {
    if c as int < 0x80 then 1
    else if c as int < 0x800 then 2
    else if c as int < 0x1_0000 then 3
    else 4
  }

  /** Go's `len(s)`: the length of the UTF-8 encoding of `s`. */
  function Utf8Len(s: string): (n: nat)
    ensures |s| <= n <= 4 * |s|
  {
    if |s| == 0 then 0 else RuneLen(s[0]) + Utf8Len(s[1..])
  }

  /** On ASCII strings bytes and characters coincide. */
  lemma {:induction false} AsciiUtf8Len(s: string)
    requires forall i :: 0 <= i < |s| ==> s[i] as int < 0x80
    ensures Utf8Len(s) == |s|
  {
    if |s| > 0 {
      assert s[0] as int < 0x80;
      AsciiUtf8Len(s[1..]);
    }
  }

  /** Any non-ASCII character makes the string longer in bytes than in
      characters. */
  lemma {:induction false} NonAsciiUtf8Len(s: string, k: nat)
    requires k < |s| && s[k] as int >= 0x80
    ensures Utf8Len(s) > |s|
  {
    if k > 0 {
      NonAsciiUtf8Len(s[1..], k - 1);
    }
  }

  /** The order on layouts: `x` comes before `y` when it is strictly longer. */
  predicate Longer(x: string, y: string) {
    Utf8Len(x) > Utf8Len(y)
  }

  /** `StringByLength.Less(i, j)`: `len` compares bytes, so "é" (two bytes)
      is not shorter than "ab". */
  function Less(a: seq<string>, i: nat, j: nat): (b: bool)
    requires i < |a| && j < |a|
    ensures b <==> Utf8Len(a[i]) > Utf8Len(a[j])
  {
    Longer(a[i], a[j])
  }

  /** Equal byte counts are a tie even when the character counts differ:
      "é" and "ab" are both two bytes long, so neither is `Less` than the
      other and either order is sorted. */
  lemma LessCountsBytes()
    ensures !Less(["ab", "\U{E9}"], 0, 1) && !Less(["ab", "\U{E9}"], 1, 0)
    ensures SortedByLength(["\U{E9}", "ab"]) && SortedByLength(["ab", "\U{E9}"])
  {
    assert Utf8Len("\U{E9}") == 2 && Utf8Len("ab") == 2;
  }

  /** `StringByLength.Swap(i, j)`, on a value instead of in place. */
  function Swap(a: seq<string>, i: nat, j: nat): (b: seq<string>)
    requires i < |a| && j < |a|
    ensures |b| == |a|
    ensures b[i] == a[j] && b[j] == a[i]
    ensures forall k :: 0 <= k < |a| && k != i && k != j ==> b[k] == a[k]
    ensures multiset(b) == multiset(a)
  {
    a[i := a[j]][j := a[i]]
  }

  /** Swapping twice restores the slice. */
  lemma SwapInvolution(a: seq<string>, i: nat, j: nat)
    requires i < |a| && j < |a|
    ensures Swap(Swap(a, i, j), i, j) == a
  {
  }

  /** `Less` is a strict weak order, the requirement `sort.Sort` places on
      it: irreflexive, transitive, and "neither is less" (equal length) is
      transitive too. */
  lemma LongerIsStrictWeakOrder()
    ensures forall x: string :: !Longer(x, x)
    ensures forall x: string, y: string :: Longer(x, y) ==> !Longer(y, x)
    ensures forall x: string, y: string, z: string ::
      Longer(x, y) && Longer(y, z) ==> Longer(x, z)
    ensures forall x: string, y: string, z: string ::
      !Longer(x, y) && !Longer(y, x) && !Longer(y, z) && !Longer(z, y) ==>
        !Longer(x, z) && !Longer(z, x)
  {
  }

  /** The postcondition of `sort.Sort`: no later element is `Less` than an
      earlier one, i.e. lengths never increase. */
  ghost predicate SortedByLength(s: seq<string>) {
    forall i, j :: 0 <= i < j < |s| ==> Utf8Len(s[i]) >= Utf8Len(s[j])
  }

  /** `sort.Sort(StringByLength(a))`: reorders `data` looking at it only
      through `Less` and `Swap`. Go's algorithm (pattern-defeating quicksort)
      is not stable; this insertion sort stands in for it, and only what
      `sort.Sort` guarantees is claimed about the result. */
  method Sort(data: seq<string>) returns (a: seq<string>)
    ensures multiset(a) == multiset(data)
    ensures SortedByLength(a)
  {
    a := data;
    var i := 0;
    while i < |a|
      invariant 0 <= i <= |a| == |data|
      invariant multiset(a) == multiset(data)
      invariant forall p, q :: 0 <= p < q < i ==> Utf8Len(a[p]) >= Utf8Len(a[q])
    {
      var j := i;
      while 0 < j && Less(a, j, j - 1)
        invariant 0 <= j <= i < |a| == |data|
        invariant multiset(a) == multiset(data)
        invariant forall p, q :: 0 <= p < q <= i && p != j && q != j ==> Utf8Len(a[p]) >= Utf8Len(a[q])
        invariant forall q :: j < q <= i ==> Utf8Len(a[j]) > Utf8Len(a[q])
      {
        a := Swap(a, j, j - 1);
        j := j - 1;
      }
      i := i + 1;
    }
  }

  /** The length profile of a sequence of layouts. */
  function Lengths(s: seq<string>): (ls: seq<nat>)
    ensures |ls| == |s|
    ensures forall k :: 0 <= k < |s| ==> ls[k] == Utf8Len(s[k])
  {
    seq(|s|, k requires 0 <= k < |s| => Utf8Len(s[k]))
  }

  /** Removing one element keeps a sequence sorted by length. */
  lemma RemoveKeepsSorted(s: seq<string>, k: nat)
    requires k < |s|
    requires SortedByLength(s)
    ensures SortedByLength(s[..k] + s[k + 1..])
  {
  }

  /** Dropping the first element keeps a sequence sorted by length. */
  lemma TailKeepsSorted(s: seq<string>)
    requires |s| > 0
    requires SortedByLength(s)
    ensures SortedByLength(s[1..])
  {
  }

  /** Removing the element at `k` from a sequence removes one copy of it
      from its multiset. */
  lemma RemoveFromMultiset(s: seq<string>, k: nat)
    requires k < |s|
    ensures multiset(s[..k] + s[k + 1..]) == multiset(s) - multiset{s[k]}
  {
    assert s == s[..k] + [s[k]] + s[k + 1..];
  }

  /** Permutations of each other have the same number of elements. */
  lemma PermutationLength(a: seq<string>, b: seq<string>)
    requires multiset(a) == multiset(b)
    ensures |a| == |b|
  {
    assert |a| == |multiset(a)| == |multiset(b)| == |b|;
  }

  /** A sorted permutation of `b` starts with an element at least as long as
      any element of `b`. */
  lemma SortedHeadIsLongest(a: seq<string>, b: seq<string>, k: nat)
    requires multiset(a) == multiset(b) && SortedByLength(a)
    requires k < |b|
    ensures |a| > 0 && Utf8Len(a[0]) >= Utf8Len(b[k])
  {
    assert b[k] in multiset(a);
    var j :| 0 <= j < |a| && a[j] == b[k];
    assert Utf8Len(a[0]) >= Utf8Len(a[j]);
  }

  /** The same, against a known byte count `n` of an element of `b`. */
  lemma SortedHeadAtLeast(a: seq<string>, b: seq<string>, k: nat, n: nat)
    requires multiset(a) == multiset(b) && SortedByLength(a)
    requires k < |b| && Utf8Len(b[k]) >= n
    ensures |a| > 0 && Utf8Len(a[0]) >= n
  {
    SortedHeadIsLongest(a, b, k);
  }

  /** Two sorted permutations of each other start with elements of the same
      (maximal) length. */
  lemma HeadsSameLength(a: seq<string>, b: seq<string>)
    requires multiset(a) == multiset(b) && |a| > 0
    requires SortedByLength(a) && SortedByLength(b)
    ensures |b| > 0 && Utf8Len(a[0]) == Utf8Len(b[0])
  {
    assert a[0] in multiset(b);
    assert b[0] in multiset(a);
    var k :| 0 <= k < |b| && b[k] == a[0];
    var k' :| 0 <= k' < |a| && a[k'] == b[0];
    assert Utf8Len(a[0]) >= Utf8Len(a[k']) && Utf8Len(b[0]) >= Utf8Len(b[k]);
  }

  /** The induction step of SortedLengthsUnique: if the tail of `a` and `b`
      less its element at `k` (which has the length of `a[0]`) agree on
      lengths, then so do `a` and `b`. */
  lemma LengthsFromTails(a: seq<string>, b: seq<string>, k: nat)
    requires 0 < |a| == |b| && k < |b|
    requires SortedByLength(b)
    requires Utf8Len(a[0]) == Utf8Len(b[0]) == Utf8Len(b[k])
    requires Lengths(a[1..]) == Lengths(b[..k] + b[k + 1..])
    ensures Lengths(a) == Lengths(b)
  {
  }

  /** A copy of `a[0]` sits somewhere in a permutation `b` of `a`; removing
      it from `b` leaves a permutation of the tail of `a`. */
  lemma MatchHead(a: seq<string>, b: seq<string>) returns (k: nat)
    requires multiset(a) == multiset(b) && |a| > 0
    ensures |a| == |b| && k < |b| && b[k] == a[0]
    ensures multiset(a[1..]) == multiset(b[..k] + b[k + 1..])
  {
    assert |a| == |multiset(a)| == |multiset(b)| == |b|;
    assert a[0] in multiset(b);
    k :| 0 <= k < |b| && b[k] == a[0];
    RemoveFromMultiset(b, k);
    RemoveFromMultiset(a, 0);
    assert a[1..] == a[..0] + a[1..];
  }

  /** Matches the head of `a` with a copy in `b` and removes both, leaving two
      shorter sorted sequences that are again permutations of each other. */
  lemma RemoveHeads(a: seq<string>, b: seq<string>) returns (k: nat)
    requires multiset(a) == multiset(b) && |a| > 0
    requires SortedByLength(a) && SortedByLength(b)
    ensures |a| == |b| && k < |b| && Utf8Len(a[0]) == Utf8Len(b[0]) == Utf8Len(b[k])
    ensures multiset(a[1..]) == multiset(b[..k] + b[k + 1..])
    ensures SortedByLength(a[1..]) && SortedByLength(b[..k] + b[k + 1..])
  {
    k := MatchHead(a, b);
    HeadsSameLength(a, b);
    RemoveKeepsSorted(b, k);
    TailKeepsSorted(a);
  }

  /** Although `sort.Sort` may order equal-length layouts either way, every
      sorted permutation of the same layouts has the same length at every
      position: ties are the only freedom the unstable sort has. */
  lemma {:induction false} SortedLengthsUnique(a: seq<string>, b: seq<string>)
    requires multiset(a) == multiset(b)
    requires SortedByLength(a) && SortedByLength(b)
    ensures Lengths(a) == Lengths(b)
    decreases |a|
  {
    if |a| == 0 {
      assert |b| == |multiset(b)| == 0;
      return;
    }
    var k := RemoveHeads(a, b);
    SortedLengthsUnique(a[1..], b[..k] + b[k + 1..]);
    LengthsFromTails(a, b, k);
  }
}

=== FILE: catalog.dfy ===
/**
  `defaultLayouts` (time.go, lines 33-136): the catalog of strptime layouts
  the engine falls back to when no layout is given, as opaque strings in
  their declared order. Their `%`-directives mean something only to the
  extractor and play no part here.
 */
module Catalog {
  import ByLength

  /** The layouts in the order they are declared; duplicates included. */
  const DefaultLayouts: seq<string> := [
    "%Y-%m-%d %H:%M:%S",
    "%Y-%m-%dT%H:%M:%S",
    "%Y-%m-%dT%H:%M:%SZ",
    "%Y-%m-%dT%H:%M:%S.%LZ",
    "%Y-%m-%dT%H:%M:%S.%L",
    "%Y-%m-%dT%H:%M:%S.%L%z",
    "%Y-%m-%d",
    "%Y/%m/%d %H:%M:%S",
    "%Y/%m/%dT%H:%M:%S",
    "%Y/%m/%d",
    "%Y%m%d %H:%M:%S",
    "%Y%m%dT%H:%M:%S",
    "%Y%m%d",
    "%a %d %b %Y %H:%M:%S",
    "%A %d %B %Y %H:%M:%S",
    "%d %b %Y %H:%M:%S",
    "%d %B %Y %H:%M:%S",
    "%d %b %Y %I:%M:%S %p",
    "%d %B %Y %I:%M:%S %p",
    "%d %b %Y %l:%M:%S %p",
    "%d %B %Y %l:%M:%S %p",
    "%d %b %Y %H:%M",
    "%d %B %Y %H:%M",
    "%d %b %Y %I:%M %p",
    "%d %B %Y %I:%M %p",
    "%d %b %Y %l:%M %p",
    "%d %B %Y %l:%M %p",
    "%d %b %Y %H:%M:%S %Z",
    "%d %B %Y %H:%M:%S %Z",
    "%d %b %Y %I:%M:%S %p %Z",
    "%d %B %Y %I:%M:%S %p %Z",
    "%d %b %Y %l:%M:%S %p %Z",
    "%d %B %Y %l:%M:%S %p %Z",
    "%d %b %Y %H:%M %Z",
    "%d %B %Y %H:%M %Z",
    "%d %b %Y %I:%M %p %Z",
    "%d %B %Y %I:%M %p %Z",
    "%d %b %Y %l:%M %p %Z",
    "%d %B %Y %l:%M %p %Z",
    "%Y-%m-%d %H:%M:%S %Z",
    "%Y-%m-%d %H:%M:%S %z",
    "%Y-%m-%d %I:%M:%S %p %Z",
    "%Y-%m-%d %I:%M:%S %p %z",
    "%Y-%m-%d %l:%M:%S %p %Z",
    "%Y-%m-%d %l:%M:%S %p %z",
    "%Y-%m-%d %H:%M %Z",
    "%Y-%m-%d %H:%M %z",
    "%Y-%m-%d %I:%M %p %Z",
    "%Y-%m-%d %I:%M %p %z",
    "%Y-%m-%d %l:%M %p %Z",
    "%Y-%m-%d %l:%M %p %z",
    "%Y-%m-%d %H:%M:%S %Z %z",
    "%Y-%m-%d %I:%M:%S %p %Z %z",
    "%Y-%m-%d %l:%M:%S %p %Z %z",
    "%Y-%m-%d %H:%M %Z %z",
    "%Y-%m-%d %I:%M %p %Z %z",
    "%Y-%m-%d %l:%M %p %Z %z",
    "%Y-%m-%d %H:%M:%S %z %Z",
    "%Y-%m-%d %I:%M:%S %p %z %Z",
    "%Y-%m-%d %l:%M:%S %p %z %Z",
    "%Y-%m-%d %H:%M %z %Z",
    "%Y-%m-%d %I:%M %p %z %Z",
    "%Y-%m-%d %l:%M %p %z %Z",
    "%Y-%m-%d %H:%M:%S %z %z",
    "%Y-%m-%d %I:%M:%S %p %z %z",
    "%Y-%m-%d %l:%M:%S %p %z %z",
    "%Y-%m-%d %H:%M %z %z",
    "%Y-%m-%d %I:%M %p %z %z",
    "%Y-%m-%d %l:%M %p %z %z",
    "%Y-%m-%d %H:%M:%S %Z %z %Z",
    "%Y-%m-%d %I:%M:%S %p %Z %z %Z",
    "%Y-%m-%d %l:%M:%S %p %Z %z %Z",
    "%Y-%m-%d %H:%M %Z %z %Z",
    "%Y-%m-%d %I:%M %p %Z %z %Z",
    "%Y-%m-%d %l:%M %p %Z %z %Z",
    "%Y-%m-%d %H:%M:%S %z %z %Z",
    "%Y-%m-%d %I:%M:%S %p %z %z %Z",
    "%Y-%m-%d %l:%M:%S %p %z %z %Z",
    "%Y-%m-%d %H:%M %z %z %Z",
    "%Y-%m-%d %I:%M %p %z %z %Z",
    "%Y-%m-%d %l:%M %p %z %z %Z",
    "%Y-%m-%d %H:%M:%S %Z %z %z",
    "%Y-%m-%d %I:%M:%S %p %Z %z %z",
    "%Y-%m-%d %l:%M:%S %p %Z %z %z",
    "%Y-%m-%d %H:%M %Z %z %z",
    "%Y-%m-%d %I:%M %p %Z %z %z",
    "%Y-%m-%d %l:%M %p %Z %z %z",
    "%Y-%m-%d %H:%M:%S %z %z %Z",
    "%Y-%m-%d %I:%M:%S %p %z %z %Z",
    "%Y-%m-%d %l:%M:%S %p %z %z %Z",
    "%Y-%m-%d %H:%M %z %z %Z",
    "%Y-%m-%d %I:%M %p %z %z %Z",
    "%Y-%m-%d %l:%M %p %z %z %Z",
    "%B %dth, %Y",
    "%B %dth, %Y %H:%M:%S %Z",
    "%B %dth, %Y %I%p",
    "%B %dth, %Y %I%p",
    "%m/%d/%y",
    "%d-%m-%Y",
    "%Y-%b-%d %I%p",
    "%Y-%m-%d %H:%M:%S %Z%z",
    "%Y-%m-%d %H:%M:%S %Z%z"
  ]

  /** The catalog has 102 entries but only 94 distinct layouts: the block at
      lines 121-126 repeats lines 109-114, and lines 130 and 135 repeat
      lines 129 and 134. A sort of it must therefore keep duplicates: it is a
      permutation of a multiset, not of a set. */
  lemma DefaultLayoutsHaveDuplicates()
    ensures |DefaultLayouts| == 102
    ensures DefaultLayouts[75] == DefaultLayouts[87]
    ensures DefaultLayouts[76] == DefaultLayouts[88]
    ensures DefaultLayouts[77] == DefaultLayouts[89]
    ensures DefaultLayouts[78] == DefaultLayouts[90]
    ensures DefaultLayouts[79] == DefaultLayouts[91]
    ensures DefaultLayouts[80] == DefaultLayouts[92]
    ensures DefaultLayouts[95] == DefaultLayouts[96]
    ensures DefaultLayouts[100] == DefaultLayouts[101]
  {
  }

  /** Line 104's layout is 29 bytes long. */
  lemma LongestEntry()
    ensures ByLength.Utf8Len(DefaultLayouts[70]) == 29
  {
    var l := DefaultLayouts[70];
    assert l == "%Y-%m-%d %I:%M:%S %p %Z %z %Z";
    ByLength.AsciiUtf8Len(l);
  }

  /** A sort of the catalog keeps its 102 entries. */
  lemma SortKeepsSize(s: seq<string>)
    requires multiset(s) == multiset(DefaultLayouts)
    ensures |s| == 102
  {
    ByLength.PermutationLength(s, DefaultLayouts);
  }

  /** A sort of the catalog begins with a layout at least as long as line 104's. */
  lemma SortedHead(s: seq<string>)
    requires multiset(s) == multiset(DefaultLayouts) && ByLength.SortedByLength(s)
    ensures |s| > 0 && ByLength.Utf8Len(s[0]) >= 29
  {
    assert 70 < |DefaultLayouts| && ByLength.Utf8Len(DefaultLayouts[70]) >= 29 by {
      LongestEntry();
    }
    ByLength.SortedHeadAtLeast(s, DefaultLayouts, 70, 29);
  }

  /** Every sort of the catalog the fallback search can walk has the same
      length profile and 102 entries, and begins with a layout at least as
      long as line 104's, which has 29 bytes. */
  lemma DefaultLayoutsSorted(s1: seq<string>, s2: seq<string>)
    requires multiset(s1) == multiset(DefaultLayouts) && ByLength.SortedByLength(s1)
    requires multiset(s2) == multiset(DefaultLayouts) && ByLength.SortedByLength(s2)
    ensures |s1| == |s2| == 102
    ensures ByLength.Lengths(s1) == ByLength.Lengths(s2)
    ensures ByLength.Utf8Len(s1[0]) >= 29
  {
    SortKeepsSize(s1);
    SortKeepsSize(s2);
    ByLength.SortedLengthsUnique(s1, s2);
    SortedHead(s1);
  }
}

=== FILE: ctypes.dfy ===
/**
  The C side of the cgo boundary in time.go: the 32-bit `int` of the C
  compiler, the `struct mytm` record the extractor fills in, and the shape of
  one call to the extractor `bsd_strptime`, whose implementation is not part
  of this model and is therefore taken as a parameter.
 */
module CTypes {

  const INT32_MIN: int := -0x8000_0000
  const INT32_MAX: int := 0x7FFF_FFFF
  const TWO_TO_32: int := 0x1_0000_0000

  /** The range of a C `int` (`C.int` on the Go side): 32 bits, two's complement. */
  predicate IsInt32(x: int) {
    INT32_MIN <= x <= INT32_MAX
  }

  /** A C `int`. */
  type Int32 = x: int | IsInt32(x)

  /** The value Go's `int32` arithmetic produces for the mathematical value `x`:
      the unique 32-bit integer congruent to `x` modulo 2^32. */
  function Wrap32(x: int): (r: Int32)
    ensures (x - r) % TWO_TO_32 == 0
    ensures INT32_MIN <= x <= INT32_MAX ==> r == x
  {
    var m := x % TWO_TO_32;
    if m > INT32_MAX then m - TWO_TO_32 else m
  }

  /** Two values wrap to the same 32-bit integer exactly when they are
      congruent modulo 2^32. */
  lemma Wrap32Congruent(x: int, y: int)
    ensures Wrap32(x) == Wrap32(y) <==> (x - y) % TWO_TO_32 == 0
  {
    var rx, ry := Wrap32(x), Wrap32(y);
    if (x - y) % TWO_TO_32 == 0 {
      assert (rx - ry) % TWO_TO_32 == 0 by {
        assert rx - ry == (x - y) - (x - rx) + (y - ry);
      }
      assert -TWO_TO_32 < rx - ry < TWO_TO_32;
    }
  }

  /** A C `char *`: either NULL or a pointer to a NUL-terminated string. */
  datatype CharPtr = Null | Ptr(s: string)

  /** `C.GoString`: the Go string a C pointer denotes; NULL reads as "". */
  function GoString(p: CharPtr): (s: string)
    ensures p.Ptr? ==> s == p.s
    ensures p.Null? ==> s == ""
  {
    match p
    case Null => ""
    case Ptr(s) => s
  }

  /** `struct mytm`: the broken-down time the extractor writes into.
      `year` counts from 1900 and `mon` from 0, as in C's `struct tm`; the
      extension fields `nsec` and `gmtoff` are of a width this model does not
      see, so they are plain integers. */
  datatype Tm = Tm(
    year: Int32,
    mon: Int32,
    mday: Int32,
    hour: Int32,
    min: Int32,
    sec: Int32,
    nsec: int,
    zone: CharPtr,
    gmtoff: int)

  /** The zero value of `C.struct_mytm`, as `var cTime C.struct_mytm` declares it. */
  const ZeroTm: Tm := Tm(0, 0, 0, 0, 0, 0, 0, Null, 0)

  /** What one call `r, err := C.bsd_strptime(s, format, &tm)` yields: the C
      return value, the errno cgo turns into `err` (nil exactly when it is 0),
      and the record as the call left it, whether or not the call succeeded. */
  datatype Attempt = Attempt(r: Int32, errno: Int32, tm: Tm)

  /** The extractor: value, layout and the record it is handed, to the outcome. */
  type Extractor = (string, string, Tm) -> Attempt

  /** The engine's acceptance test for one attempt: `r != 0 && err == nil`. */
  predicate Succeeded(a: Attempt) {
    a.r != 0 && a.errno == 0
  }
}

=== FILE: strtime.dfy ===
/**
  `Strptime` (time.go, lines 138-183): parse `value` with the given layout,
  or, when the layout is empty, with the first layout of the length-sorted
  catalog the extractor accepts; then turn the extracted `struct mytm` into a
  `time.Time` with a fixed zone.
 */
module Strtime {
  import opened CTypes
  import ByLength

  datatype Option<T> = None | Some(value: T)

  /** `time.FixedZone(name, offset)`: a zone with a literal name and offset in
      seconds east of UTC, never looked up in a zone database. */
  datatype Location = FixedZone(name: string, offset: int)

  /** A `time.Time`: the zero value `time.Time{}` that accompanies every
      error, or the arguments handed to `time.Date` (its normalisation of
      out-of-range fields is not modelled). */
  datatype Time =
    | ZeroTime
    | Date(year: int, month: int, day: int, hour: int, minute: int, second: int,
           nsec: int, loc: Location)

  /** What a strict-mode error wraps: `errors.New("")` when the extractor
      returned 0, otherwise the errno cgo reported. */
  datatype Cause = EmptyCause | Errno(code: Int32)

  datatype Error =
    | NoSuitableFormat                                        // "no suitable format found"
    | CouldNotParse(value: string, layout: string, cause: Cause) // "could not parse <value> as <layout>"

  /** The pair `(time.Time, error)`; `err == None` is Go's nil error. */
  datatype Return = Return(t: Time, err: Option<Error>)

  // ---------------------------------------------------------------------------
  // Field assembly
  // ---------------------------------------------------------------------------

  /** The `time.Date(...)` call both modes make on success. The year is
      converted to a Go `int` before 1900 is added, and Go's `int` is taken to
      be 64 bits wide, so that sum cannot wrap; the month is computed as
      `tm_mon + 1` in 32-bit C `int` arithmetic and only then converted. */
  function Assemble(tm: Tm): (t: Time)
    ensures t.Date?
    ensures t.year - 1900 == tm.year
    ensures t.loc.name == GoString(tm.zone) && t.loc.offset == tm.gmtoff
  {
    Date(tm.year + 1900, Wrap32(tm.mon + 1), tm.mday, tm.hour, tm.min, tm.sec, tm.nsec,
         FixedZone(GoString(tm.zone), tm.gmtoff))
  }

  /** The inverse of Assemble: the record a `time.Date` call was assembled
      from, if there is one (the zone name comes back as a non-NULL pointer). */
  function TmOf(t: Time): Option<Tm> {
    if t.Date? && IsInt32(t.year - 1900) && IsInt32(t.month) && IsInt32(t.day)
       && IsInt32(t.hour) && IsInt32(t.minute) && IsInt32(t.second)
    then
      Some(Tm(t.year - 1900, Wrap32(t.month - 1), t.day, t.hour, t.minute, t.second,
              t.nsec, Ptr(t.loc.name), t.loc.offset))
    else
      None
  }

  /** Assembly loses nothing but the difference between a NULL zone name and
      an empty one: every field of the record can be read back. */
  lemma AssembleRoundTrip(tm: Tm)
    ensures TmOf(Assemble(tm)) == Some(tm.(zone := Ptr(GoString(tm.zone))))
  {
  }

  /** Every assembled time that fits the C record comes from exactly that record. */
  lemma TmOfRoundTrip(t: Time)
    requires TmOf(t).Some?
    ensures Assemble(TmOf(t).value) == t
  {
  }

  /** Distinct records with non-NULL zone names assemble to distinct times, so
      two inputs with the same zone name but different offsets keep their own
      offsets. */
  lemma AssembleInjective(tm1: Tm, tm2: Tm)
    requires tm1.zone.Ptr? && tm2.zone.Ptr?
    requires Assemble(tm1) == Assemble(tm2)
    ensures tm1 == tm2
  {
  }

  /** The month offset: a 0-based month in range gives the calendar month
      one higher, and the one value whose `+ 1` overflows a C `int` wraps. */
  lemma AssembleMonth(tm: Tm)
    ensures 0 <= tm.mon <= 11 ==> 1 <= Assemble(tm).month <= 12
    ensures tm.mon < INT32_MAX ==> Assemble(tm).month == tm.mon + 1
    ensures tm.mon == INT32_MAX ==> Assemble(tm).month == INT32_MIN
  {
  }

  // ---------------------------------------------------------------------------
  // Strict mode
  // ---------------------------------------------------------------------------

  /** One attempt with the caller's layout on a zero record (time.go, lines
      164-182). A return value of 0 replaces whatever errno was reported by
      an empty error. */
  function Strict(extract: Extractor, value: string, layout: string): (ret: Return)
    ensures ret.err.None? <==> Succeeded(extract(value, layout, ZeroTm))
    ensures ret.err.None? ==> ret.t == Assemble(extract(value, layout, ZeroTm).tm)
    ensures ret.err.Some? ==>
      && ret.t == ZeroTime
      && ret.err.value.CouldNotParse?
      && ret.err.value.value == value
      && ret.err.value.layout == layout
      && (ret.err.value.cause == EmptyCause <==> extract(value, layout, ZeroTm).r == 0)
  {
    var a := extract(value, layout, ZeroTm);
    if a.r == 0 || a.errno != 0 then
      var cause := if a.r == 0 then EmptyCause else Errno(a.errno);
      Return(ZeroTime, Some(CouldNotParse(value, layout, cause)))
    else
      Return(Assemble(a.tm), None)
  }

  // ---------------------------------------------------------------------------
  // Fallback mode
  // ---------------------------------------------------------------------------

  /** The record attempt `k` is handed: the single `cTime` is never reset, so
      it is whatever the previous attempt left in it; an extractor that never
      writes the record leaves the starting one in place. */
  function TmBefore(extract: Extractor, value: string, layouts: seq<string>, tm0: Tm, k: nat): (tm: Tm)
    requires k <= |layouts|
    ensures k == 0 ==> tm == tm0
    ensures (forall v, l, t :: extract(v, l, t).tm == t) ==> tm == tm0
  {
    if k == 0 then tm0
    else extract(value, layouts[k - 1], TmBefore(extract, value, layouts, tm0, k - 1)).tm
  }

  /** The outcome of the `k`-th attempt of the search, had it been reached;
      the first attempt is handed the starting record. */
  function AttemptAt(extract: Extractor, value: string, layouts: seq<string>, tm0: Tm, k: nat): (a: Attempt)
    requires k < |layouts|
    ensures k == 0 ==> a == extract(value, layouts[0], tm0)
    ensures (forall v, l, t :: extract(v, l, t).tm == t) ==> a == extract(value, layouts[k], tm0)
  {
    extract(value, layouts[k], TmBefore(extract, value, layouts, tm0, k))
  }

  /** Attempt `k` is the first to succeed. */
  ghost predicate FirstSuccessAt(extract: Extractor, value: string, layouts: seq<string>, tm0: Tm, k: nat) {
    && k < |layouts|
    && Succeeded(AttemptAt(extract, value, layouts, tm0, k))
    && forall j :: 0 <= j < k ==> !Succeeded(AttemptAt(extract, value, layouts, tm0, j))
  }

  /** No attempt succeeds. */
  ghost predicate NoneSucceed(extract: Extractor, value: string, layouts: seq<string>, tm0: Tm) {
    forall j :: 0 <= j < |layouts| ==> !Succeeded(AttemptAt(extract, value, layouts, tm0, j))
  }

  /** The fallback search (time.go, lines 145-161) as a recursive definition:
      a failed attempt, fault or plain mismatch alike, is dropped and the
      next layout is tried on the record it left behind. Its error is never
      a strict-mode error, and it carries a time exactly when it succeeds. */
  function Fallback(extract: Extractor, value: string, layouts: seq<string>, tm: Tm): (ret: Return)
    ensures ret.err == None || ret.err == Some(NoSuitableFormat)
    ensures ret.err.None? <==> ret.t.Date?
    decreases |layouts|
  {
    if |layouts| == 0 then
      Return(ZeroTime, Some(NoSuitableFormat))
    else
      var a := extract(value, layouts[0], tm);
      if a.r != 0 && a.errno == 0 then Return(Assemble(a.tm), None)
      else Fallback(extract, value, layouts[1..], a.tm)
  }

  /** The attempts of a search that starts with a failed attempt on
      `layouts[0]` are those of the search over the rest, started on the
      record that attempt left. */
  lemma {:induction false} TmBeforeShift(extract: Extractor, value: string, layouts: seq<string>, tm0: Tm, k: nat)
    requires k < |layouts|
    ensures TmBefore(extract, value, layouts, tm0, k + 1)
         == TmBefore(extract, value, layouts[1..], extract(value, layouts[0], tm0).tm, k)
  {
    if k > 0 {
      TmBeforeShift(extract, value, layouts, tm0, k - 1);
      assert layouts[1..][k - 1] == layouts[k];
    }
  }

  /** When attempt `k` is the first to succeed, the search returns its
      assembled record and nothing after it matters. */
  lemma {:induction false} FallbackFirstMatch(extract: Extractor, value: string, layouts: seq<string>, tm0: Tm, k: nat)
    requires FirstSuccessAt(extract, value, layouts, tm0, k)
    ensures Fallback(extract, value, layouts, tm0)
         == Return(Assemble(AttemptAt(extract, value, layouts, tm0, k).tm), None)
    decreases k
  {
    if k > 0 {
      var a := extract(value, layouts[0], tm0);
      assert AttemptAt(extract, value, layouts, tm0, 0) == a;
      var rest := layouts[1..];
      forall j | 0 <= j < k
        ensures AttemptAt(extract, value, rest, a.tm, j) == AttemptAt(extract, value, layouts, tm0, j + 1)
      {
        TmBeforeShift(extract, value, layouts, tm0, j);
      }
      FallbackFirstMatch(extract, value, rest, a.tm, k - 1);
    }
  }

  /** When no attempt succeeds, the search reports "no suitable format
      found" with the zero time; in particular an empty catalog does. */
  lemma {:induction false} FallbackExhausted(extract: Extractor, value: string, layouts: seq<string>, tm0: Tm)
    requires NoneSucceed(extract, value, layouts, tm0)
    ensures Fallback(extract, value, layouts, tm0) == Return(ZeroTime, Some(NoSuitableFormat))
    decreases |layouts|
  {
    if |layouts| > 0 {
      var a := extract(value, layouts[0], tm0);
      assert AttemptAt(extract, value, layouts, tm0, 0) == a;
      var rest := layouts[1..];
      forall j | 0 <= j < |rest|
        ensures AttemptAt(extract, value, rest, a.tm, j) == AttemptAt(extract, value, layouts, tm0, j + 1)
      {
        TmBeforeShift(extract, value, layouts, tm0, j);
      }
      FallbackExhausted(extract, value, rest, a.tm);
    }
  }

  /** Some attempt succeeds exactly when there is a first one that does. */
  lemma {:induction false} LeastSuccess(extract: Extractor, value: string, layouts: seq<string>, tm0: Tm, j: nat)
    requires j < |layouts| && Succeeded(AttemptAt(extract, value, layouts, tm0, j))
    ensures exists k: nat :: k <= j && FirstSuccessAt(extract, value, layouts, tm0, k)
    decreases j
  {
    if FirstSuccessAt(extract, value, layouts, tm0, j) {
      return;
    }
    var i :| 0 <= i < j && Succeeded(AttemptAt(extract, value, layouts, tm0, i));
    LeastSuccess(extract, value, layouts, tm0, i);
  }

  /** The search succeeds if and only if some attempt, on the record the
      attempts before it left behind, succeeds. */
  lemma FallbackSucceedsIff(extract: Extractor, value: string, layouts: seq<string>, tm0: Tm)
    ensures Fallback(extract, value, layouts, tm0).err.None? <==> !NoneSucceed(extract, value, layouts, tm0)
  {
    if NoneSucceed(extract, value, layouts, tm0) {
      FallbackExhausted(extract, value, layouts, tm0);
    } else {
      var j :| 0 <= j < |layouts| && Succeeded(AttemptAt(extract, value, layouts, tm0, j));
      LeastSuccess(extract, value, layouts, tm0, j);
      var k: nat :| k <= j && FirstSuccessAt(extract, value, layouts, tm0, k);
      FallbackFirstMatch(extract, value, layouts, tm0, k);
    }
  }

  /** Longest first: in a length-sorted catalog, every layout strictly longer
      than the one that matched was attempted before it and failed. */
  lemma LongerLayoutsTriedFirst(extract: Extractor, value: string, layouts: seq<string>, tm0: Tm, k: nat)
    requires ByLength.SortedByLength(layouts)
    requires FirstSuccessAt(extract, value, layouts, tm0, k)
    ensures forall j :: 0 <= j < |layouts| && ByLength.Utf8Len(layouts[j]) > ByLength.Utf8Len(layouts[k]) ==>
      j < k && !Succeeded(AttemptAt(extract, value, layouts, tm0, j))
  {
  }

  /** Both modes assemble alike: strict mode with layout `l` succeeds exactly
      when a fallback search over the one-layout catalog `[l]` does, and then
      with the same time. Only the error differs. */
  lemma StrictAgreesWithFallback(extract: Extractor, value: string, l: string)
    ensures Strict(extract, value, l).err.None? <==> Fallback(extract, value, [l], ZeroTm).err.None?
    ensures Strict(extract, value, l).err.None? ==>
      Strict(extract, value, l).t == Fallback(extract, value, [l], ZeroTm).t
  {
    assert [l][1..] == [];
  }

  /** The extractor writes every field it reports, so the record it is handed
      makes no difference to its outcome. */
  ghost predicate IgnoresIncomingRecord(extract: Extractor) {
    forall v, l, tm :: extract(v, l, tm) == extract(v, l, ZeroTm)
  }

  /** Under that assumption, and only then, the shared `cTime` is harmless:
      the fallback search returns what strict mode returns for the first
      layout strict mode accepts. */
  lemma FallbackIsFirstStrictMatch(extract: Extractor, value: string, layouts: seq<string>, tm0: Tm, k: nat)
    requires IgnoresIncomingRecord(extract)
    requires k < |layouts| && Strict(extract, value, layouts[k]).err.None?
    requires forall j :: 0 <= j < k ==> Strict(extract, value, layouts[j]).err.Some?
    ensures Fallback(extract, value, layouts, tm0) == Strict(extract, value, layouts[k])
  {
    forall j | 0 <= j <= k
      ensures AttemptAt(extract, value, layouts, tm0, j) == extract(value, layouts[j], ZeroTm)
    {
    }
    assert FirstSuccessAt(extract, value, layouts, tm0, k);
    FallbackFirstMatch(extract, value, layouts, tm0, k);
  }

  /** Without it the record leaks: here a failed first attempt leaves an
      offset of one hour behind, and the second layout, which sets no zone,
      succeeds with that offset although strict mode with the same layout
      reports offset 0. */
  lemma SharedRecordLeaks()
    ensures var extract: Extractor := (v: string, l: string, tm: Tm) =>
              if l == "%z %d" then Attempt(0, 0, tm.(gmtoff := 3600)) else Attempt(1, 0, tm);
            && Fallback(extract, "04", ["%z %d", "%d"], ZeroTm).t.loc.offset == 3600
            && Strict(extract, "04", "%d").t.loc.offset == 0
  {
  }

  // ---------------------------------------------------------------------------
  // The entry point
  // ---------------------------------------------------------------------------

  /** `Strptime(value, layout)`. `catalog` is the current content of the
      global `defaultLayouts`, and `sorted` its content afterwards: fallback
      mode sorts it in place, strict mode leaves it alone. `tried` lists the
      layouts handed to the extractor, in order. An empty layout selects
      fallback mode and any other layout strict mode; the two never mix. */
  method Strptime(extract: Extractor, catalog: seq<string>, value: string, layout: string)
    returns (ret: Return, sorted: seq<string>, tried: seq<string>)
    ensures layout == "" ==>
      && multiset(sorted) == multiset(catalog)
      && ByLength.SortedByLength(sorted)
      && ret == Fallback(extract, value, sorted, ZeroTm)
    ensures layout == "" ==> forall k :: FirstSuccessAt(extract, value, sorted, ZeroTm, k) ==>
      && tried == sorted[..k + 1]
      && ret == Return(Assemble(AttemptAt(extract, value, sorted, ZeroTm, k).tm), None)
    ensures layout == "" && NoneSucceed(extract, value, sorted, ZeroTm) ==>
      tried == sorted && ret == Return(ZeroTime, Some(NoSuitableFormat))
    ensures layout != "" ==>
      sorted == catalog && tried == [layout] && ret == Strict(extract, value, layout)
  {
    var tm := ZeroTm;
    if layout == "" {
      sorted := ByLength.Sort(catalog);
      tried := [];
      var i := 0;
      while i < |sorted|
        invariant 0 <= i <= |sorted|
        invariant tried == sorted[..i]
        invariant tm == TmBefore(extract, value, sorted, ZeroTm, i)
        invariant forall j :: 0 <= j < i ==> !Succeeded(AttemptAt(extract, value, sorted, ZeroTm, j))
      {
        var l := sorted[i];
        var a := extract(value, l, tm);
        tried := tried + [l];
        tm := a.tm;
        if a.r != 0 && a.errno == 0 {
          ret := Return(Assemble(tm), None);
          assert FirstSuccessAt(extract, value, sorted, ZeroTm, i);
          FallbackFirstMatch(extract, value, sorted, ZeroTm, i);
          return;
        }
        i := i + 1;
      }
      ret := Return(ZeroTime, Some(NoSuitableFormat));
      FallbackExhausted(extract, value, sorted, ZeroTm);
      return;
    }
    sorted := catalog;
    tried := [layout];
    var a := extract(value, layout, tm);
    if a.r == 0 || a.errno != 0 {
      var cause := if a.r == 0 then EmptyCause else Errno(a.errno);
      ret := Return(ZeroTime, Some(CouldNotParse(value, layout, cause)));
      return;
    }
    ret := Return(Assemble(a.tm), None);
  }
}
